=== FILE: README.md ===
# face_ripper_9000 — the arithmetic core in Dafny

face_ripper_9000 scans `.mp4` videos for a target face and saves square
crops of it. It samples frames at a chosen rate and sends each one to a
pool of worker processes. A worker crops every face that matches the
target. The sampler drains the finished crops to disk as it goes.

This project models the pure rules inside `main` and
`worker_process_func` of `demo.py`:

- `params.dfy` (module `Params`): how `main` normalises its parameters.
  It clamps the tolerance, defaults the per-video quota and the minimum
  KB, and caps the sampling rate at each video's native fps. The capped
  rate is stored back into `xfps`, so it carries over to later videos.
- `sampler.dfy` (module `Sampler`): the frame-sampling loop over one video.
  The loop state is the record `State(framenum, written)`. `StepOnce` is
  one iteration. `Run` and the loop method `SampleVideo` are many
  iterations.
  - What cv2 and the result queue answer in each iteration (capture
    open, frame read, crop drained) is an input: `Observation`.
  - A Python `ZeroDivisionError` is the status `DivByZero`. It arises at
    demo.py:124 when `xfps` is 0 and at demo.py:131 when the frame count
    is 0.
- `ints.dfy` (module `Ints`): `Max`, shared by the two modules below.
- `crop.dfy` (module `Crop`): the geometry a worker applies to a matching
  face. It squares the box, pads it by half the side, and drops a padded
  box that leaves the frame. It then slices the crop with `int()`
  truncation under numpy's slicing rules, and resizes a crop with a side
  below 256 to 256x256. `ProcessFrame` runs this over all faces of one
  frame.
  - The result of `compare_faces(...)[0]` is an input: `Face.isTarget`.
  - `cv2.resize` raises on an empty crop. Only `queue.Empty` is caught
    (demo.py:236), so the exception ends the worker process. The model
    stops at that frame and marks it `failed`; the worker's death and the
    loss of its later work are not modelled.

Tolerances, frame rates, frame positions and percentages are modelled as
`real`. Crop coordinates are integers. The half-integer padding is tested
in doubled form: `top - side/2 >= 0` is written `2*top - side >= 0`.

Two consequences of the code are worth knowing:

- A worker crops every face whose `istarget[0]` is true
  (demo.py:210-235), not only the first. `ProcessFrame` does the same,
  and `ProcessFrameCropsEveryEligibleFace` states it.
- The cap is stored back into `xfps` (demo.py:110-111), so a low-fps
  video lowers the rate for every later video. With a non-negative `-f`, a video
  whose fps reads as 0 sets `xfps` to 0 (`ZeroRatePersists`). The next division
  `vidfps/xfps` at demo.py:124 then raises `ZeroDivisionError`. That is
  this video's own loop if its capture is open, otherwise the next opened
  video's. `main` catches only `ValueError` and `IndexError`
  (demo.py:152, 162), so the error ends the whole scan.
  A negative `-f` (argparse accepts one, demo.py:18) is never capped, since
  `xfps > vidfps` is false; it stays negative and no video divides by zero.

## Model

| member | source | states |
|---|---|---|
| `Params.ClampTolerance` | demo.py:26-29 | the clamped tolerance lies in [0.1, 1.0], equals the input exactly when the input is already in range, and is the nearer bound otherwise |
| `Params.ClampToleranceIdempotent` | demo.py:26-29 | clamping an already clamped tolerance changes nothing |
| `Params.ClampToleranceIsNearest` | demo.py:26-29 | no value of [0.1, 1.0] is closer to the input than the clamped value |
| `Params.ClampToleranceMonotone` | demo.py:26-29 | clamping preserves the order of two tolerances |
| `Params.ReplaceBelowOne` | demo.py:49-53 | a value below one is replaced by the default; any other value is kept; the result is at least one |
| `Params.NormalizeQuota` | demo.py:49-50 | a quota below one becomes 1000; any other quota is kept; the result is at least one |
| `Params.NormalizeMinKB` | demo.py:52-53 | a minimum KB below one becomes 32; any other value is kept |
| `Params.NormalizeIdempotent` | demo.py:49-53 | normalising a normalised quota or minimum KB changes nothing |
| `Params.CapFps` | demo.py:110-111 | the rate used for a video is at most its native fps and at most the requested rate; it equals the requested rate exactly when that does not exceed the native fps |
| `Params.RatesAcross` | demo.py:95-111 | across the videos of a run, the rate never increases; the rate for video i is at most the native fps of every video opened up to i; it is the requested rate or one of those native rates |
| `Params.StrideAtLeastOne` | demo.py:110-125 | after the cap, a positive rate gives a stride `vidfps/xfps` of at least one frame |
| `Params.StrideAtLeastOneAcross` | demo.py:95-125 | if the requested rate and all native rates are positive, every video of the run gets a positive rate and a stride of at least one frame |
| `Params.ZeroRatePersists` | demo.py:104-125 | with a non-negative requested rate and native rates, once a video reports a native fps of 0, the carried rate is 0 for that video and every later one, so the next stride `vidfps/xfps` divides by zero |
| `Sampler.StepOnce` | demo.py:123-149 | a frame is submitted exactly when the capture is open, the read succeeds and neither division is by zero; `framenum` then advances by one stride; when the capture is closed or `xfps` is 0 the state is unchanged, and when the seek went ahead but nothing was submitted only `framenum` has advanced; `written` rises by one exactly when a frame is submitted and a crop is drained, and otherwise stays; the loop stops with `Closed` exactly when the capture is not open, with `EndOfStream` exactly when the read fails with a non-zero rate, and with `DivByZero` exactly when the capture is open and `xfps` is 0 or the read succeeds with a frame count of 0; it goes on only if progress is at most 99.9 % and `written` is at most the quota, and stops with `Finished` exactly when one of them is exceeded |
| `Sampler.Run` | demo.py:122-149 | the loop over one video as a recursion over the observations: at most one frame is submitted per iteration, a loop still running has submitted one frame in every iteration, and no more images are pulled than frames submitted; its further properties are the rows below |
| `Sampler.SampledPositions` | demo.py:103-126 | the k-th submitted frame (k from 0) is at `skipFrames + (k+1) * vidfps/xfps`, so the start frame itself is never read |
| `Sampler.SampledIncreasing` | demo.py:124-125 | with a positive stride, the submitted frame positions strictly increase |
| `Sampler.WrittenBounds` | demo.py:122-143 | `written` grows by exactly the number of images pulled from the result queue; that number is at most the number of submitted frames; `written` ends at most one above `max(quota, 1)`, and at most `max(quota, 1)` while the loop is still running |
| `Sampler.QuotaRespected` | demo.py:122-143 | with a normalised quota, one video's loop pulls at most `quota` images from the result queue, that number is `written - 1`, and it is no more than the number of submitted frames |
| `Sampler.StopsWhenDone` | demo.py:131-149 | every submitted frame except the last is within 99.9 % of the video (all of them while the loop still runs); a `Finished` stop happens right after the last submitted frame, and that frame's progress exceeds 99.9 % or `written` exceeds the quota |
| `Sampler.SampleCountBounded` | demo.py:123-143 | when two or more frames are submitted and the stride and frame count are positive, `(frames - 1) * stride <= 0.999 * totalframes - skipFrames`, so however many observations come a video yields a bounded number of frames |
| `Sampler.SampleVideo` | demo.py:122-149 | the imperative loop over one video computes the same final state, status, submitted positions and number of pulled images as the functional `Run` |
| `Crop.Square` | demo.py:215-221 | squaring keeps `top` and `left`, moves at most one of `bottom` and `right`, and makes height and width both equal to the larger original side |
| `Crop.SquareFixesSquares` | demo.py:218-221 | a box is left unchanged exactly when it is already square, so squaring is idempotent |
| `Crop.TruncHalf` | demo.py:229 | `int(n / 2)` truncates toward zero: for n >= 0 it is the floor of n/2; for n < 0 it is the ceiling |
| `Crop.SliceIndex` | demo.py:229 | a slice bound lands in `0 .. n`, and an in-range bound is used as is |
| `Crop.SliceRect` | demo.py:229 | the sliced rectangle always lies within the frame |
| `Crop.Resize` | demo.py:231-233 | the output is at least 256x256; a crop is left unchanged exactly when both of its sides are at least 256; otherwise it becomes exactly 256x256 |
| `Crop.ResizeStable` | demo.py:231-233 | resizing an output again changes nothing |
| `Crop.CropFace` | demo.py:215-235 | the face is dropped as out of frame exactly when the padded squared box leaves the frame, with no clamping; the resize fails exactly when the padded box is inside the frame but its slice is empty; an emitted crop is the slice of the padded squared box, lies within the frame, and is at least 256x256 after resizing |
| `Crop.PaddedSpan` | demo.py:226-229 | truncating both ends of a padded side keeps exactly twice the squared side |
| `Crop.CropIsPaddedSquare` | demo.py:215-233 | for a box with positive side s that passes the bounds test, the crop starts at `int(top - s/2)`, `int(left - s/2)`, is exactly 2s by 2s within the frame, and its output size is the resize of 2s x 2s |
| `Crop.DegenerateBoxFails` | demo.py:226-233 | a zero-sized box inside the frame gives an empty slice that the resize rejects |
| `Crop.CountTargets` | demo.py:210-214 | the number of matching faces is at most the number of faces |
| `Crop.EligibleFaces` | demo.py:210-228 | a face is kept exactly when it is a face of the frame that matches and whose padded box is inside the frame; no more faces are kept than there are |
| `Crop.EligibleFacesAppend` | demo.py:210-228 | selecting from two runs of faces one after the other is selecting from each and concatenating, so the kept faces stay in detection order |
| `Crop.EligibleFacesSingle` | demo.py:210-228 | a single face is kept exactly when it matches and its padded box is inside the frame |
| `Crop.ProcessFrame` | demo.py:210-235 | for one frame, the worker emits no more crops than there are matching faces; every crop lies within the frame and is at least 256x256 (when the frame fails is stated by `Crop.ProcessFrameFailsExactly`) |
| `Crop.ProcessFrameStep` | demo.py:210-235 | past a face at which the worker does not raise, the frame fails exactly when the rest of it does, and the face adds one crop exactly when it is eligible |
| `Crop.ProcessFrameFailsExactly` | demo.py:210-235 | a frame fails exactly when some matching face inside the frame gives an empty slice; a non-matching face never makes it fail |
| `Crop.ProcessFrameCropsBeforeFailure` | demo.py:210-235 | when the worker raises at the first failing face, the frame is marked failed and the crops already queued are one per eligible face before it |
| `Crop.ProcessFrameCropsEveryEligibleFace` | demo.py:210-235 | the worker never emits more crops than there are eligible faces (a matching face whose padded box is inside the frame); a frame processed to the end yields exactly one crop per eligible face: every match, not only the first |
| `Crop.ProcessFrameCropsInOrder` | demo.py:210-235 | the crops of a frame come in detection order, and the k-th crop is the crop of the k-th eligible face |
| `Crop.ProcessFrameNeverFailsOnProperBoxes` | demo.py:215-233 | if no box has side zero, the worker always finishes the frame |

## Left out

- The process pool, the work and result queues, `doneEvent` and the worker exit loop (demo.py:40-47, 154-159, 193-199, 236-238). These are concurrency and inter-process plumbing. The model takes the queue's answers as inputs.
- The 200-pick orchestration loop and the random choice of a video (demo.py:95-99, 152-163). These are random and depend on the filesystem. `RatesAcross` models only the rate carried from one video to the next. In Python 3, `random.choice` of an empty list raises `IndexError`, not `ValueError`. The shutdown branch at demo.py:152-161 may therefore be unreachable for an empty directory. This is not modelled.
- Video renames (demo.py:144-148), directory creation and `os.chdir` (demo.py:64-72, 120), and the two post-filter passes (demo.py:164-190). These are filesystem work. The post-filters also call the face detector, which is external.
- `random_string` and file naming (demo.py:83-93). These are random.
- face_recognition detection, encoding and comparison, and cv2 seek, read, resize and imwrite. These are foreign calls. Matches, reads and drains are inputs. Only the resize's target size and its failure on an empty image are modelled.
- IEEE floating point. Rounding, NaN (a NaN tolerance passes through both comparisons unclamped) and infinities are not modelled; `real` is exact.
- `outputsize` is a local of `main` that the worker reads (demo.py:108, 233). The model uses the constant 256x256 that was evidently meant.
- The detector's boxes are taken as arbitrary integers. Inverted boxes (bottom above top) follow numpy's slicing rules in `SliceRect`, but no property is stated about them.
- Sampler.SampleCountBounded: bounds the submitted frames only when two or more are submitted and the stride and the frame count are positive. A `skipFrames` beyond 99.9 % of the video still submits one frame. With a zero or negative stride, a loop that starts within 99.9 % may not end until the capture or the quota ends it.
- A `DivByZero` status ends the whole run, since `main` does not catch `ZeroDivisionError`. `Params.RatesAcross` still describes the rates of videos after it, which the program never reaches.
- The death of a worker process when `cv2.resize` raises on an empty crop (demo.py:233, 236). `ProcessFrame` stops at the failing frame; the worker's later frames are not modelled.

=== FILE: crop.dfy ===
/**
 What a worker does with one dequeued frame once detection and comparison
 have run: for every detected face whose comparison with the first
 reference encoding is positive, square its box, pad it by half its side,
 drop it if the padded box leaves the frame, slice the crop out of the
 frame and resize it to 256x256 when either side is below 256.

 Boxes are cv2/face_recognition `(top, right, bottom, left)` integer
 tuples. The padding is a half-integer; every test against it is written
 doubled so that it stays in integers (`top - side/2 >= 0` becomes
 `2*top - side >= 0`), and `int()` of a half-integer is `TruncHalf`.
 */
module Crop {
  import opened Ints

  /** Side of the canonical output image. */
  const OutputSide: int := 256

  datatype Box = Box(top: int, right: int, bottom: int, left: int)

  /** Rows `row0 .. row1-1` and columns `col0 .. col1-1` of the frame. */
  datatype Rect = Rect(row0: int, row1: int, col0: int, col1: int)

  datatype Size = Size(height: int, width: int)

  /** A crop: the part of the frame it was cut from and its final size. */
  datatype Cropped = Cropped(rect: Rect, size: Size)

  datatype CropOutcome =
    | OutOfFrame      // the padded box leaves the frame: no crop
    | EmptyCrop       // the slice is empty and the resize raises
    | Emitted(crop: Cropped)

  /** A detected face and whether it compared positive against the first
      reference encoding (`istarget[0]`). */
  datatype Face = Face(box: Box, isTarget: bool)

  /** The crops a worker puts on the result queue for one frame, in order,
      and whether it raised part-way through. */
  datatype FrameResult = FrameResult(crops: seq<Cropped>, failed: bool)

  function Height(b: Box): int {
    b.bottom - b.top
  }

  function Width(b: Box): int {
    b.right - b.left
  }

  predicate RectInFrame(r: Rect, frameH: int, frameW: int) {
    0 <= r.row0 <= r.row1 <= frameH && 0 <= r.col0 <= r.col1 <= frameW
  }

  function RectSize(r: Rect): Size {
    Size(r.row1 - r.row0, r.col1 - r.col0)
  }

  /** Squaring: the shorter side is stretched to the longer one, moving only
      `right` or `bottom`. */
  function Square(b: Box): (r: Box)
    ensures r.top == b.top && r.left == b.left
    ensures Height(r) == Width(r) == Max(Height(b), Width(b))
    ensures r.bottom == b.bottom || r.right == b.right
  {
    if Height(b) > Width(b) then b.(right := b.left + Height(b))
    else if Width(b) > Height(b) then b.(bottom := b.top + Width(b))
    else b
  }

  /** A square box is left alone, so squaring twice is squaring once. */
  lemma SquareFixesSquares(b: Box)
    ensures Square(b) == b <==> Height(b) == Width(b)
    ensures Square(Square(b)) == Square(b)
  {
  }

  /** The bounds test on the squared box padded by half its side on every
      edge; nothing is clamped. */
  predicate PaddedInFrame(q: Box, frameH: int, frameW: int) {
    var side := Height(q);
    && 2 * q.top - side >= 0
    && 2 * q.bottom + side <= 2 * frameH
    && 2 * q.left - side >= 0
    && 2 * q.right + side <= 2 * frameW
  }

  /** Python's `int(n / 2)`: division by two truncated toward zero. */
  function TruncHalf(n: int): (r: int)
    ensures n >= 0 ==> 0 <= 2 * r <= n < 2 * r + 2
    ensures n < 0 ==> 2 * r - 2 < n <= 2 * r <= 0
  {
    if n >= 0 then n / 2 else -((-n) / 2)
  }

  /** Where a slice bound lands on an axis of length `n`: a negative bound
      counts from the end, and the result is clipped to `0 .. n`. */
  function SliceIndex(i: int, n: int): (r: int)
    requires n >= 0
    ensures 0 <= r <= n
    ensures 0 <= i <= n ==> r == i
  {
    if i < 0 then Max(i + n, 0)
    else if i > n then n
    else i
  }

  /** The rectangle `frame[int(top - pad):int(bottom + pad), int(left - pad):int(right + pad)]`
      selects, with `pad` half the side of the squared box. */
  function SliceRect(q: Box, frameH: int, frameW: int): (r: Rect)
    requires frameH >= 0 && frameW >= 0
    ensures RectInFrame(r, frameH, frameW)
  {
    var side := Height(q);
    var r0 := SliceIndex(TruncHalf(2 * q.top - side), frameH);
    var r1 := SliceIndex(TruncHalf(2 * q.bottom + side), frameH);
    var c0 := SliceIndex(TruncHalf(2 * q.left - side), frameW);
    var c1 := SliceIndex(TruncHalf(2 * q.right + side), frameW);
    Rect(r0, Max(r0, r1), c0, Max(c0, c1))
  }

  /** The size rule: a crop below 256 on either side becomes exactly
      256x256, any other crop keeps its size. */
  function Resize(sz: Size): (r: Size)
    ensures r.height >= OutputSide && r.width >= OutputSide
    ensures r == sz <==> sz.height >= OutputSide && sz.width >= OutputSide
    ensures r != sz ==> r == Size(OutputSide, OutputSide)
  {
    if sz.height < OutputSide || sz.width < OutputSide then Size(OutputSide, OutputSide)
    else sz
  }

  /** Resizing an output again changes nothing, and a square crop stays square. */
  lemma ResizeStable(sz: Size)
    ensures Resize(Resize(sz)) == Resize(sz)
    ensures sz.height == sz.width ==> Resize(sz).height == Resize(sz).width
  {
  }

  /** The crop cut for one matching face of a `frameH` x `frameW` frame. */
  function CropFace(b: Box, frameH: int, frameW: int): (o: CropOutcome)
    requires frameH >= 0 && frameW >= 0
    ensures o.OutOfFrame? <==> !PaddedInFrame(Square(b), frameH, frameW)
    ensures o.EmptyCrop? <==>
      var sz := RectSize(SliceRect(Square(b), frameH, frameW));
      PaddedInFrame(Square(b), frameH, frameW) && (sz.height == 0 || sz.width == 0)
    ensures o.Emitted? ==>
      && RectInFrame(o.crop.rect, frameH, frameW)
      && o.crop.rect == SliceRect(Square(b), frameH, frameW)
      && o.crop.size == Resize(RectSize(o.crop.rect))
      && o.crop.size.height >= OutputSide && o.crop.size.width >= OutputSide
  {
    var q := Square(b);
    if !PaddedInFrame(q, frameH, frameW) then OutOfFrame
    else
      var rect := SliceRect(q, frameH, frameW);
      var sz := RectSize(rect);
      if sz.height == 0 || sz.width == 0 then EmptyCrop
      else Emitted(Cropped(rect, Resize(sz)))
  }

  /** Truncating both ends of a padded side of length `side` keeps exactly
      `2 * side` rows (or columns). */
  lemma PaddedSpan(start: int, side: int)
    requires side >= 0 && 2 * start - side >= 0
    ensures TruncHalf(2 * (start + side) + side) - TruncHalf(2 * start - side) == 2 * side
  {
  }

  /** For a box with a positive side that passes the bounds test, the slice
      is the padded square itself, shifted only by truncation, never clipped:
      it starts at `int(top - pad)` and `int(left - pad)` and spans twice
      the squared side in both directions. */
  lemma CropIsPaddedSquare(b: Box, frameH: int, frameW: int)
    requires frameH >= 0 && frameW >= 0
    requires Max(Height(b), Width(b)) >= 1
    requires PaddedInFrame(Square(b), frameH, frameW)
    ensures var side := Max(Height(b), Width(b));
      var row0 := TruncHalf(2 * b.top - side);
      var col0 := TruncHalf(2 * b.left - side);
      CropFace(b, frameH, frameW) ==
        Emitted(Cropped(Rect(row0, row0 + 2 * side, col0, col0 + 2 * side), Resize(Size(2 * side, 2 * side))))
  {
  }

  /** A degenerate box (side zero) inside the frame gives an empty slice,
      which the resize cannot handle. */
  lemma DegenerateBoxFails(b: Box, frameH: int, frameW: int)
    requires frameH >= 0 && frameW >= 0
    requires Max(Height(b), Width(b)) == 0
    requires PaddedInFrame(Square(b), frameH, frameW)
    ensures CropFace(b, frameH, frameW) == EmptyCrop
  {
  }

  function CountTargets(faces: seq<Face>): (n: nat)
    ensures n <= |faces|
  {
    if |faces| == 0 then 0
    else (if faces[0].isTarget then 1 else 0) + CountTargets(faces[1..])
  }

  /** A face that yields a crop: a positive comparison and a padded box
      inside the frame. */
  predicate Eligible(f: Face, frameH: int, frameW: int) {
    f.isTarget && PaddedInFrame(Square(f.box), frameH, frameW)
  }

  /** The faces of a frame that yield a crop, in detection order. */
  function EligibleFaces(faces: seq<Face>, frameH: int, frameW: int): (e: seq<Face>)
    ensures |e| <= |faces|
    ensures forall k :: 0 <= k < |e| ==> Eligible(e[k], frameH, frameW)
    ensures forall f :: f in e <==> f in faces && Eligible(f, frameH, frameW)
  {
    if |faces| == 0 then []
    else if Eligible(faces[0], frameH, frameW) then [faces[0]] + EligibleFaces(faces[1..], frameH, frameW)
    else EligibleFaces(faces[1..], frameH, frameW)
  }

  /** Selecting the eligible faces of two runs of faces one after the other
      is selecting from each and concatenating: together with the one-face
      case this makes `EligibleFaces` the order-preserving filter. */
  lemma {:induction false} EligibleFacesAppend(a: seq<Face>, b: seq<Face>, frameH: int, frameW: int)
    ensures EligibleFaces(a + b, frameH, frameW) == EligibleFaces(a, frameH, frameW) + EligibleFaces(b, frameH, frameW)
    ensures EligibleFaces([], frameH, frameW) == []
    decreases |a|
  {
    if |a| == 0 {
      assert a + b == b;
    } else {
      assert (a + b)[0] == a[0];
      assert (a + b)[1..] == a[1..] + b;
      EligibleFacesAppend(a[1..], b, frameH, frameW);
    }
  }

  /** A single face is kept exactly when it is eligible. */
  lemma EligibleFacesSingle(f: Face, frameH: int, frameW: int)
    ensures EligibleFaces([f], frameH, frameW) == if Eligible(f, frameH, frameW) then [f] else []
  {
    assert [f][1..] == [];
  }

  /** The `for fenc, floc in zip(...)` loop of the worker over the faces of
      one frame, in detection order. Every matching face is cropped, not
      only the first. An empty slice makes the resize raise; the model
      stops at that frame, and what the uncaught exception does to the
      worker process afterwards is not modelled. */
  function ProcessFrame(faces: seq<Face>, frameH: int, frameW: int): (r: FrameResult)
    requires frameH >= 0 && frameW >= 0
    ensures |r.crops| <= CountTargets(faces) <= |faces|
    ensures forall k :: 0 <= k < |r.crops| ==>
      && RectInFrame(r.crops[k].rect, frameH, frameW)
      && r.crops[k].size.height >= OutputSide && r.crops[k].size.width >= OutputSide
    decreases |faces|
  {
    if |faces| == 0 then FrameResult([], false)
    else
      var rest := ProcessFrame(faces[1..], frameH, frameW);
      if !faces[0].isTarget then rest
      else
        match CropFace(faces[0].box, frameH, frameW)
        case OutOfFrame => rest
        case EmptyCrop => FrameResult([], true)
        case Emitted(c) => FrameResult([c] + rest.crops, rest.failed)
  }

  /** The worker never emits more crops than there are eligible faces, and
      when the frame is processed to the end it emits exactly one crop per
      eligible face: every matching face inside the frame, not only the
      first. */
  lemma {:induction false} ProcessFrameCropsEveryEligibleFace(faces: seq<Face>, frameH: int, frameW: int)
    requires frameH >= 0 && frameW >= 0
    ensures |ProcessFrame(faces, frameH, frameW).crops| <= |EligibleFaces(faces, frameH, frameW)|
    ensures !ProcessFrame(faces, frameH, frameW).failed ==>
      |ProcessFrame(faces, frameH, frameW).crops| == |EligibleFaces(faces, frameH, frameW)|
    decreases |faces|
  {
    if |faces| > 0 {
      ProcessFrameCropsEveryEligibleFace(faces[1..], frameH, frameW);
    }
  }

  /** Each crop, position by position, is the crop of the matching face. */
  predicate CropsOf(crops: seq<Cropped>, e: seq<Face>, frameH: int, frameW: int)
    requires frameH >= 0 && frameW >= 0
  {
    forall k :: 0 <= k < |crops| && k < |e| ==> CropFace(e[k].box, frameH, frameW) == Emitted(crops[k])
  }

  /** The crops a worker emits for a frame are, in detection order, the
      crops of the eligible faces. */
  lemma {:induction false} ProcessFrameCropsInOrder(faces: seq<Face>, frameH: int, frameW: int)
    requires frameH >= 0 && frameW >= 0
    ensures CropsOf(ProcessFrame(faces, frameH, frameW).crops, EligibleFaces(faces, frameH, frameW), frameH, frameW)
    decreases |faces|
  {
    if |faces| > 0 {
      ProcessFrameCropsInOrder(faces[1..], frameH, frameW);
      var f := faces[0];
      var rest := ProcessFrame(faces[1..], frameH, frameW);
      var eRest := EligibleFaces(faces[1..], frameH, frameW);
      var o := CropFace(f.box, frameH, frameW);
      if !f.isTarget || o.OutOfFrame? {
        assert ProcessFrame(faces, frameH, frameW) == rest;
        assert EligibleFaces(faces, frameH, frameW) == eRest;
      } else if o.EmptyCrop? {
        assert ProcessFrame(faces, frameH, frameW).crops == [];
      } else {
        assert ProcessFrame(faces, frameH, frameW).crops == [o.crop] + rest.crops;
        assert EligibleFaces(faces, frameH, frameW) == [f] + eRest;
        CropsOfCons(o.crop, f, rest.crops, eRest, frameH, frameW);
      }
    }
  }

  lemma CropsOfCons(c: Cropped, f: Face, crops: seq<Cropped>, e: seq<Face>, frameH: int, frameW: int)
    requires frameH >= 0 && frameW >= 0
    requires CropFace(f.box, frameH, frameW) == Emitted(c)
    requires CropsOf(crops, e, frameH, frameW)
    ensures CropsOf([c] + crops, [f] + e, frameH, frameW)
  {
    var crops' := [c] + crops;
    var e' := [f] + e;
    forall k | 0 <= k < |crops'| && k < |e'|
      ensures CropFace(e'[k].box, frameH, frameW) == Emitted(crops'[k])
    {
      if k > 0 {
        assert e'[k] == e[k - 1] && crops'[k] == crops[k - 1];
      }
    }
  }

  /** A matching face whose crop the resize rejects. */
  predicate FailsAt(f: Face, frameH: int, frameW: int)
    requires frameH >= 0 && frameW >= 0
  {
    f.isTarget && CropFace(f.box, frameH, frameW).EmptyCrop?
  }

  /** Face `k` is the first of the frame at which the worker raises. */
  predicate FirstFailure(faces: seq<Face>, k: int, frameH: int, frameW: int)
    requires frameH >= 0 && frameW >= 0
  {
    && 0 <= k < |faces|
    && FailsAt(faces[k], frameH, frameW)
    && forall j :: 0 <= j < k ==> !FailsAt(faces[j], frameH, frameW)
  }

  /** Past a first face at which the worker does not raise, the frame
      fails as the rest of it does and gains one crop if that face is
      eligible. */
  lemma ProcessFrameStep(faces: seq<Face>, frameH: int, frameW: int)
    requires frameH >= 0 && frameW >= 0
    requires |faces| > 0 && !FailsAt(faces[0], frameH, frameW)
    ensures var r := ProcessFrame(faces, frameH, frameW);
      var rest := ProcessFrame(faces[1..], frameH, frameW);
      && r.failed == rest.failed
      && |r.crops| == (if Eligible(faces[0], frameH, frameW) then 1 else 0) + |rest.crops|
  {
  }

  /** A frame fails exactly when some matching face inside the frame gives
      an empty slice. */
  lemma {:induction false} ProcessFrameFailsExactly(faces: seq<Face>, frameH: int, frameW: int)
    requires frameH >= 0 && frameW >= 0
    ensures ProcessFrame(faces, frameH, frameW).failed <==>
      exists k :: 0 <= k < |faces| && FailsAt(faces[k], frameH, frameW)
    decreases |faces|
  {
    if |faces| > 0 {
      var tail := faces[1..];
      ProcessFrameFailsExactly(tail, frameH, frameW);
      if FailsAt(faces[0], frameH, frameW) {
        assert ProcessFrame(faces, frameH, frameW).failed;
      } else {
        ProcessFrameStep(faces, frameH, frameW);
        if ProcessFrame(faces, frameH, frameW).failed {
          var k :| 0 <= k < |tail| && FailsAt(tail[k], frameH, frameW);
          assert faces[k + 1] == tail[k];
        }
        if exists k :: 0 <= k < |faces| && FailsAt(faces[k], frameH, frameW) {
          var k :| 0 <= k < |faces| && FailsAt(faces[k], frameH, frameW);
          assert tail[k - 1] == faces[k];
        }
      }
    }
  }

  /** When the worker raises at face `k`, the crops it has already put on
      the queue stay there: one per eligible face before `k`. */
  lemma {:induction false} ProcessFrameCropsBeforeFailure(faces: seq<Face>, k: int, frameH: int, frameW: int)
    requires frameH >= 0 && frameW >= 0
    requires FirstFailure(faces, k, frameH, frameW)
    ensures ProcessFrame(faces, frameH, frameW).failed
    ensures |ProcessFrame(faces, frameH, frameW).crops| == |EligibleFaces(faces[..k], frameH, frameW)|
    decreases |faces|
  {
    var f := faces[0];
    if k == 0 {
      assert faces[..k] == [];
    } else {
      var tail := faces[1..];
      forall j | 0 <= j < k - 1
        ensures !FailsAt(tail[j], frameH, frameW)
      {
        assert tail[j] == faces[j + 1];
      }
      assert tail[k - 1] == faces[k];
      ProcessFrameCropsBeforeFailure(tail, k - 1, frameH, frameW);
      assert !FailsAt(faces[0], frameH, frameW);
      ProcessFrameStep(faces, frameH, frameW);
      assert faces[..k] == [f] + tail[..k - 1];
      EligibleFacesAppend([f], tail[..k - 1], frameH, frameW);
      EligibleFacesSingle(f, frameH, frameW);
    }
  }

  /** With no degenerate box among the faces, the worker always gets to the
      end of the frame. */
  lemma {:induction false} ProcessFrameNeverFailsOnProperBoxes(faces: seq<Face>, frameH: int, frameW: int)
    requires frameH >= 0 && frameW >= 0
    requires forall k :: 0 <= k < |faces| ==> Max(Height(faces[k].box), Width(faces[k].box)) >= 1
    ensures !ProcessFrame(faces, frameH, frameW).failed
    decreases |faces|
  {
    if |faces| > 0 {
      assert forall k :: 0 <= k < |faces[1..]| ==> faces[1..][k] == faces[k + 1];
      ProcessFrameNeverFailsOnProperBoxes(faces[1..], frameH, frameW);
      if Eligible(faces[0], frameH, frameW) {
        CropIsPaddedSquare(faces[0].box, frameH, frameW);
      }
    }
  }
}

=== FILE: ints.dfy ===
/** Small integer helpers shared by the sampler and the crop geometry. */
module Ints {

  /** The larger of two integers. */
  function Max(a: int, b: int): (r: int)
    ensures r >= a && r >= b
    ensures r == a || r == b
  {
    if a >= b then a else b
  }
}

=== FILE: params.dfy ===
/**
 Normalisation of the command-line parameters done at the top of `main`
 (tolerance, per-video quota, minimum kilobytes) and the sampling-rate cap
 applied each time a video is opened.

 Tolerance and frame rates are Python floats; they are modelled as `real`.
 */
module Params {

  const MinTolerance: real := 0.1
  const MaxTolerance: real := 1.0
  const DefaultQuota: int := 1000
  const DefaultMinKB: int := 32

  predicate ToleranceInRange(t: real) {
    MinTolerance <= t <= MaxTolerance
  }

  function Dist(a: real, b: real): real {
    if a >= b then a - b else b - a
  }

  /** The `-t` value after `main` has clamped it: an out-of-range value is
      replaced by the nearer end of [0.1, 1.0], an in-range value is kept. */
  function ClampTolerance(t: real): (r: real)
    ensures ToleranceInRange(r)
    ensures r == t <==> ToleranceInRange(t)
    ensures t > MaxTolerance ==> r == MaxTolerance
    ensures t < MinTolerance ==> r == MinTolerance
  {
    if t > MaxTolerance then MaxTolerance
    else if t < MinTolerance then MinTolerance
    else t
  }

  /** Clamping a clamped tolerance changes nothing. */
  lemma ClampToleranceIdempotent(t: real)
    ensures ClampTolerance(ClampTolerance(t)) == ClampTolerance(t)
  {
  }

  /** No value of the allowed range is closer to the input than the clamped one. */
  lemma ClampToleranceIsNearest(t: real, u: real)
    requires ToleranceInRange(u)
    ensures Dist(ClampTolerance(t), t) <= Dist(u, t)
  {
  }

  /** Clamping preserves the order of tolerances. */
  lemma ClampToleranceMonotone(t1: real, t2: real)
    requires t1 <= t2
    ensures ClampTolerance(t1) <= ClampTolerance(t2)
  {
  }

  /** Shared rule of `-n` and `-s`: a value below one is replaced by a default. */
  function ReplaceBelowOne(n: int, fallback: int): (r: int)
    requires fallback >= 1
    ensures r >= 1
    ensures r == n <==> n >= 1
    ensures n < 1 ==> r == fallback
  {
    if n < 1 then fallback else n
  }

  /** Matches to keep from each video: `-n` below one means 1000. */
  function NormalizeQuota(n: int): (r: int)
    ensures r >= 1
    ensures n >= 1 ==> r == n
    ensures n < 1 ==> r == DefaultQuota
  {
    ReplaceBelowOne(n, DefaultQuota)
  }

  /** Minimum size in KB of a kept image: `-s` below one means 32. */
  function NormalizeMinKB(s: int): (r: int)
    ensures r >= 1
    ensures s >= 1 ==> r == s
    ensures s < 1 ==> r == DefaultMinKB
  {
    ReplaceBelowOne(s, DefaultMinKB)
  }

  /** Normalising a normalised quota or size changes nothing. */
  lemma NormalizeIdempotent(n: int)
    ensures NormalizeQuota(NormalizeQuota(n)) == NormalizeQuota(n)
    ensures NormalizeMinKB(NormalizeMinKB(n)) == NormalizeMinKB(n)
  {
  }

  /** The sampling rate used for a video whose native rate is `vidfps`:
      it never exceeds the native rate and is the requested rate when that
      already fits. */
  function CapFps(xfps: real, vidfps: real): (r: real)
    ensures r <= xfps && r <= vidfps
    ensures r == xfps || r == vidfps
    ensures r == xfps <==> xfps <= vidfps
  {
    if xfps > vidfps then vidfps else xfps
  }

  /** The rate used for each video of a run, in the order the videos are
      opened. `main` stores the capped value back into `xfps`, so the rate
      used for a video depends on every video opened before it. */
  function RatesAcross(xfps: real, fps: seq<real>): (r: seq<real>)
    ensures |r| == |fps|
    ensures forall i :: 0 <= i < |r| ==> r[i] <= xfps
    ensures forall i, j :: 0 <= j <= i < |r| ==> r[i] <= fps[j]
    ensures forall i :: 0 <= i < |r| ==> r[i] == xfps || exists j :: 0 <= j <= i && r[i] == fps[j]
    ensures forall i, j :: 0 <= i <= j < |r| ==> r[j] <= r[i]
    decreases |fps|
  {
    if |fps| == 0 then []
    else
      var x := CapFps(xfps, fps[0]);
      var rest := RatesAcross(x, fps[1..]);
      [x] + rest
  }

  /** With a positive rate that has been capped, the frame stride
      `vidfps / xfps` is at least one frame. */
  lemma StrideAtLeastOne(xfps: real, vidfps: real)
    requires 0.0 < xfps
    ensures CapFps(xfps, vidfps) > 0.0 ==> vidfps / CapFps(xfps, vidfps) >= 1.0
  {
  }

  /** When the requested rate and every native rate are positive, every
      video of the run is stepped through at least one frame at a time. */
  lemma StrideAtLeastOneAcross(xfps: real, fps: seq<real>, i: int)
    requires 0.0 < xfps
    requires forall k :: 0 <= k < |fps| ==> fps[k] > 0.0
    requires 0 <= i < |fps|
    ensures RatesAcross(xfps, fps)[i] > 0.0
    ensures fps[i] / RatesAcross(xfps, fps)[i] >= 1.0
  {
    var r := RatesAcross(xfps, fps);
    if r[i] != xfps {
      var j :| 0 <= j <= i && r[i] == fps[j];
    }
    QuotientAtLeastOne(fps[i], r[i]);
  }

  lemma QuotientAtLeastOne(a: real, b: real)
    requires 0.0 < b <= a
    ensures a / b >= 1.0
  {
  }

  /** Once a video reports a native rate of zero, every later video of the
      run is sampled at rate zero (and its stride divides by zero). */
  lemma ZeroRatePersists(xfps: real, fps: seq<real>, k: int)
    requires 0.0 <= xfps
    requires forall i :: 0 <= i < |fps| ==> fps[i] >= 0.0
    requires 0 <= k < |fps| && fps[k] == 0.0
    ensures forall i :: k <= i < |fps| ==> RatesAcross(xfps, fps)[i] == 0.0
  {
  }
}

=== FILE: sampler.dfy ===
/**
 The frame-sampling loop that `main` runs over one video.

 The loop keeps a fractional frame position `framenum`, which starts at
 `--skipFrames`, and a counter `written`, which starts at one. Each
 iteration seeks to `framenum + vidfps/xfps`, advances `framenum` by that
 stride, reads a frame, pulls at most one finished crop from the result
 queue (incrementing `written` when it finds one), submits the frame to the
 work queue and stops once progress exceeds 99.9 % or `written` exceeds the
 quota. The answers of cv2 and of the result queue are inputs
 (`Observation`); a Python `ZeroDivisionError` is the status `DivByZero`.
 */
module Sampler {
  import Params
  import opened Ints

  /** What cv2 reports for the opened video. */
  datatype Video = Video(nativeFps: real, totalFrames: real)

  /** Per-video settings: the sampling rate after the cap, the normalised
      quota and the start offset. */
  datatype Config = Config(xfps: real, quota: int, skipFrames: int)

  /** Loop state of one video. */
  datatype State = State(framenum: real, written: int)

  /** The outside world's answers during one iteration: whether the capture
      is still open, whether the read returned a frame, and whether the
      non-blocking pull from the result queue found an image. */
  datatype Observation = Observation(isOpen: bool, readOk: bool, drained: bool)

  datatype StopReason =
    | Closed       // the capture reports it is not open
    | EndOfStream  // the read returned no frame
    | Finished     // progress above 99.9 % or quota exceeded

  datatype Status = Continue | Stop(reason: StopReason) | DivByZero

  /** One iteration: the new state, whether a frame went to the work queue,
      and whether the loop goes on. */
  datatype Step = Step(state: State, submitted: bool, status: Status)

  /** Several iterations: the last state and status, the frame positions
      submitted to the work queue, in order, and the number of images
      pulled from the result queue. */
  datatype Trace = Trace(state: State, status: Status, sampled: seq<real>, pulled: nat)

  const ProgressLimit: real := 99.9

  function Start(c: Config): State {
    State(c.skipFrames as real, 1)
  }

  /** Frames advanced per iteration. */
  function Stride(v: Video, c: Config): real
    requires c.xfps != 0.0
  {
    v.nativeFps / c.xfps
  }

  /** Percentage of the video reached at position `framenum`. */
  function Progress(v: Video, framenum: real): real
    requires v.totalFrames != 0.0
  {
    framenum / v.totalFrames * 100.0
  }

  /** The loop's exit test after a frame has been submitted. */
  predicate Done(v: Video, c: Config, s: State)
    requires v.totalFrames != 0.0
  {
    Progress(v, s.framenum) > ProgressLimit || s.written > c.quota
  }

  /** One iteration of the `while` loop over a video. */
  function StepOnce(v: Video, c: Config, s: State, o: Observation): (r: Step)
    ensures r.submitted <==> o.isOpen && o.readOk && c.xfps != 0.0 && v.totalFrames != 0.0
    ensures r.submitted ==> r.state.framenum == s.framenum + Stride(v, c)
    ensures s.written <= r.state.written <= s.written + 1
    ensures r.state.written == s.written + 1 <==> r.submitted && o.drained
    ensures r.status == Continue ==> r.submitted && !Done(v, c, r.state)
    ensures r.status == Stop(Finished) <==> r.submitted && Done(v, c, r.state)
    ensures r.status == Stop(Closed) <==> !o.isOpen
    ensures r.status == Stop(EndOfStream) <==> o.isOpen && c.xfps != 0.0 && !o.readOk
    ensures r.status == DivByZero <==> o.isOpen && (c.xfps == 0.0 || (o.readOk && v.totalFrames == 0.0))
    ensures !o.isOpen || c.xfps == 0.0 ==> r.state == s
    ensures !r.submitted && o.isOpen && c.xfps != 0.0 ==> r.state == State(s.framenum + Stride(v, c), s.written)
  {
    if !o.isOpen then
      Step(s, false, Stop(Closed))
    else if c.xfps == 0.0 then
      Step(s, false, DivByZero)
    else
      var f := s.framenum + Stride(v, c);
      if !o.readOk then
        Step(State(f, s.written), false, Stop(EndOfStream))
      else if v.totalFrames == 0.0 then
        Step(State(f, s.written), false, DivByZero)
      else
        var next := State(f, if o.drained then s.written + 1 else s.written);
        if Done(v, c, next) then Step(next, true, Stop(Finished))
        else Step(next, true, Continue)
  }

  /** Iterates from `s` until the loop leaves or the observations run out
      (status `Continue` then means "still running"). At most one frame is
      submitted per observation, every iteration of a loop still running
      submitted one, and no more images are pulled than frames submitted. */
  function Run(v: Video, c: Config, s: State, obs: seq<Observation>): (t: Trace)
    ensures |t.sampled| <= |obs|
    ensures t.status == Continue ==> |t.sampled| == |obs|
    ensures t.pulled <= |t.sampled|
    decreases |obs|
  {
    if |obs| == 0 then Trace(s, Continue, [], 0)
    else
      var st := StepOnce(v, c, s, obs[0]);
      var here := if st.submitted then [st.state.framenum] else [];
      var pulled := if st.submitted && obs[0].drained then 1 else 0;
      if st.status == Continue then
        var rest := Run(v, c, st.state, obs[1..]);
        Trace(rest.state, rest.status, here + rest.sampled, pulled + rest.pulled)
      else
        Trace(st.state, st.status, here, pulled)
  }

  /** The k-th submitted frame sits k+1 strides after the start position:
      the start position itself is never read. */
  lemma {:induction false} SampledPositions(v: Video, c: Config, s: State, obs: seq<Observation>)
    requires c.xfps != 0.0
    ensures forall k :: 0 <= k < |Run(v, c, s, obs).sampled| ==>
      Run(v, c, s, obs).sampled[k] == s.framenum + (k + 1) as real * Stride(v, c)
    decreases |obs|
  {
    if |obs| > 0 {
      var st := StepOnce(v, c, s, obs[0]);
      if st.status == Continue {
        SampledPositions(v, c, st.state, obs[1..]);
        var rest := Run(v, c, st.state, obs[1..]);
        var t := Run(v, c, s, obs);
        assert t.sampled == [st.state.framenum] + rest.sampled;
        forall k | 1 <= k < |t.sampled|
          ensures t.sampled[k] == s.framenum + (k + 1) as real * Stride(v, c)
        {
          assert t.sampled[k] == rest.sampled[k - 1];
          assert rest.sampled[k - 1] == st.state.framenum + ((k - 1) + 1) as real * Stride(v, c);
          assert (k - 1) + 1 == k;
          assert (k + 1) as real * Stride(v, c) == k as real * Stride(v, c) + Stride(v, c);
        }
      }
    }
  }

  /** Positions `f + (k+1) * stride` with a positive stride strictly increase. */
  lemma ProgressionIncreasing(q: seq<real>, f: real, stride: real)
    requires stride > 0.0
    requires forall k :: 0 <= k < |q| ==> q[k] == f + (k + 1) as real * stride
    ensures forall i, j :: 0 <= i < j < |q| ==> q[i] < q[j]
  {
  }

  /** With a positive stride the submitted positions strictly increase. */
  lemma SampledIncreasing(v: Video, c: Config, s: State, obs: seq<Observation>)
    requires c.xfps != 0.0 && Stride(v, c) > 0.0
    ensures var t := Run(v, c, s, obs);
      forall i, j :: 0 <= i < j < |t.sampled| ==> t.sampled[i] < t.sampled[j]
  {
    SampledPositions(v, c, s, obs);
    ProgressionIncreasing(Run(v, c, s, obs).sampled, s.framenum, Stride(v, c));
  }

  /** `written` grows by exactly the number of images pulled from the
      result queue, which is at most the number of submitted frames, and
      stays at most one above the quota (one when the quota is below one). */
  lemma {:induction false} WrittenBounds(v: Video, c: Config, s: State, obs: seq<Observation>)
    requires 1 <= s.written <= Max(c.quota, 1)
    ensures var t := Run(v, c, s, obs);
      && t.state.written - s.written == t.pulled
      && t.pulled <= |t.sampled|
      && t.state.written <= Max(c.quota, 1) + 1
      && (t.status == Continue ==> t.state.written <= Max(c.quota, 1))
    decreases |obs|
  {
    if |obs| > 0 {
      var st := StepOnce(v, c, s, obs[0]);
      if st.status == Continue {
        WrittenBounds(v, c, st.state, obs[1..]);
      }
    }
  }

  /** With the quota `main` has normalised, the loop over one video pulls
      at most `quota` images from the result queue. */
  lemma QuotaRespected(v: Video, c: Config, obs: seq<Observation>)
    requires c.quota == Params.NormalizeQuota(c.quota)
    ensures var t := Run(v, c, Start(c), obs);
      && t.pulled <= c.quota
      && t.pulled == t.state.written - 1
      && t.pulled <= |t.sampled|
  {
    WrittenBounds(v, c, Start(c), obs);
  }

  lemma ProgressWithinLimit(v: Video, f: real)
    requires v.totalFrames > 0.0
    ensures Progress(v, f) <= ProgressLimit <==> f <= v.totalFrames * 0.999
  {
  }

  /** The loop goes on only while the last submitted frame is within the
      first 99.9 % of the video, and it leaves with `Finished` exactly when
      the last submitted frame went past that point or the quota was
      exceeded. */
  lemma {:induction false} StopsWhenDone(v: Video, c: Config, s: State, obs: seq<Observation>)
    requires v.totalFrames != 0.0
    ensures var t := Run(v, c, s, obs);
      && (forall k :: 0 <= k < |t.sampled| - 1 ==> Progress(v, t.sampled[k]) <= ProgressLimit)
      && (t.status == Continue ==> forall k :: 0 <= k < |t.sampled| ==> Progress(v, t.sampled[k]) <= ProgressLimit)
      && (t.status == Stop(Finished) ==>
            |t.sampled| > 0 && t.sampled[|t.sampled| - 1] == t.state.framenum && Done(v, c, t.state))
    decreases |obs|
  {
    if |obs| > 0 {
      var st := StepOnce(v, c, s, obs[0]);
      if st.status == Continue {
        StopsWhenDone(v, c, st.state, obs[1..]);
        var rest := Run(v, c, st.state, obs[1..]);
        var t := Run(v, c, s, obs);
        assert t.sampled == [st.state.framenum] + rest.sampled;
      }
    }
  }

  /** However many observations are supplied, a video with a positive
      stride yields a bounded number of frames: every submitted frame but
      the last lies within the first 99.9 % of the video, so at most
      `(0.999 * totalFrames - skipFrames) / stride + 1` frames are sampled. */
  lemma SampleCountBounded(v: Video, c: Config, obs: seq<Observation>)
    requires c.xfps != 0.0 && Stride(v, c) > 0.0 && v.totalFrames > 0.0
    ensures var t := Run(v, c, Start(c), obs);
      |t.sampled| >= 2 ==>
        (|t.sampled| - 1) as real * Stride(v, c) <= v.totalFrames * 0.999 - c.skipFrames as real
  {
    var t := Run(v, c, Start(c), obs);
    SampledPositions(v, c, Start(c), obs);
    StopsWhenDone(v, c, Start(c), obs);
    if |t.sampled| >= 2 {
      var k := |t.sampled| - 2;
      ProgressWithinLimit(v, t.sampled[k]);
    }
  }

  /** The `while` loop of `main` over one video, written as a loop. It
      computes exactly what `Run` describes. */
  method SampleVideo(v: Video, c: Config, obs: seq<Observation>)
    returns (final: State, status: Status, sampled: seq<real>, pulled: nat)
    ensures Trace(final, status, sampled, pulled) == Run(v, c, Start(c), obs)
  {
    final := Start(c);
    status := Continue;
    sampled := [];
    pulled := 0;
    var i := 0;
    while i < |obs| && status == Continue
      invariant 0 <= i <= |obs|
      invariant status == Continue ==>
        var rest := Run(v, c, final, obs[i..]);
        Run(v, c, Start(c), obs) == Trace(rest.state, rest.status, sampled + rest.sampled, pulled + rest.pulled)
      invariant status != Continue ==> Run(v, c, Start(c), obs) == Trace(final, status, sampled, pulled)
      decreases |obs| - i
    {
      var st := StepOnce(v, c, final, obs[i]);
      assert obs[i..][1..] == obs[i + 1..];
      if st.submitted {
        sampled := sampled + [st.state.framenum];
        if obs[i].drained {
          pulled := pulled + 1;
        }
      }
      final := st.state;
      status := st.status;
      i := i + 1;
    }
    if status == Continue {
      assert obs[i..] == [];
    }
  }
}
